=== FILE: README.md ===
# Chess move notation codecs

This project models the move-notation codecs of the `erh/chess` Go library. There are three notations, each with an `Encode(position, move)` and a `Decode(position, text)`:

- `UCINotation`: the coordinate notation of the Universal Chess Interface, e.g. `e2e4` or `a7a8q`.
- `AlgebraicNotation`: Standard Algebraic Notation (SAN), section 8.2.3 of the PGN Standard, e.g. `Nf3`, `Rae1`, `exd5`, `b8=Q+` or `O-O`.
- `LongAlgebraicNotation`: long algebraic notation (LAN), which always names the full source square, e.g. `b7b8=Q+` or `Ne5xf7`.

The codec's implementation file, `notation.go`, is not part of this model. The model follows what `notation_test.go` asserts about the codecs. Where the tests are silent, it follows SAN as section 8.2.3 of the PGN Standard defines it, and the model's own choices listed at the end of this file.

A position is reduced to what the codecs consult:

- the piece kind on each occupied square;
- the legal-move list from the move generator, each move already tagged with capture, check, checkmate, en passant or castling.

The generator's guarantees that the codecs rely on are explicit predicates, joined in `Chess.WellFormed`:

- every move starts on an occupied square;
- only pawns promote;
- no two moves share source, destination and promotion;
- at most one move castles on each side;
- two pawn moves to one square with one promotion are captures from different files.

Modules:

- `Chess`: squares, labels, piece letters, moves, positions and the generator predicates.
- `Matching`: the routine shared by all three decoders. A query filters the legal-move list, and decoding succeeds only on exactly one survivor. That survivor is returned as the generator listed it, tags included.
- `Algebraic`: the token grammar that SAN and LAN share. `Format` writes a token and `Parse` reads one back as its exact inverse.
- `San`, `Lan`, `Uci`: the three codecs.
- `Notations`: the closed family of the three codecs.
- `Scenarios`: the test file's concrete cases, stated over the model.

Decoding always checks syntax first, so malformed text fails whether or not a position is given. Well-formed text with no position fails with `PositionRequired`. Encoding returns an explicit `InconsistentMove` error instead of panicking. That happens for a non-castling move whose source square is empty, or for a promotion by a piece that is not a pawn.

## Model

| member | source | states |
|---|---|---|
| Chess.SquareOf | notation_test.go:173-178 | a two-character text names a square exactly when it is a file letter a–h followed by a rank digit 1–8, and that square's label is the text |
| Chess.LabelRoundTrip | notation_test.go:64-73 | reading back the label of any square gives that square |
| Chess.KindOfLetter | notation_test.go:42-47 | only the upper-case letters K, Q, R, B and N name a piece; the letter written for a piece reads back as that piece |
| Chess.PieceLetterRoundTrip | notation_test.go:387-402 | the letter of every non-pawn piece kind reads back as that kind |
| Matching.Filter | notation_test.go:196-206 | keeps exactly the legal moves the query admits, each as often as listed, and nothing else |
| Matching.Select | notation_test.go:17-28 | success returns a listed matching move that every other matching move equals; NoLegalMove exactly when no legal move matches; otherwise AmbiguousMove |
| Matching.SelectUnique | notation_test.go:204 | a query that admits one entry of the list selects that entry, tags and all |
| Matching.SelectNone | notation_test.go:17-22 | a query that admits no entry gives NoLegalMove |
| Matching.SelectAmbiguous | notation_test.go:23-28 | two different matching legal moves make the query ambiguous |
| Algebraic.Format | notation_test.go:387-402 | a castle is O-O or O-O-O followed by its mark; any other move ends with destination, then promotion, then check mark, in that order |
| Algebraic.SplitPromotion | notation_test.go:387-402 | splits off "=X" exactly when X is a promotion letter, and fails with InvalidPromotionPiece exactly when "=" is followed by any other character |
| Algebraic.Parse | notation_test.go:16-53 | every accepted text is the text of the returned token, so nothing outside the grammar gets through; failures are InvalidSyntax or InvalidPromotionPiece |
| Algebraic.ParseFormat | notation_test.go:387-420 | Parse reads back every token that Format writes |
| Algebraic.CastleTokenFor | notation_test.go:152-155 | a move gets a castle token exactly when it is tagged as castling, on the side of its tag, with the move's mark |
| Algebraic.Write | notation_test.go:387-420 | an encoder's token becomes text that Parse reads back as that token; an encoder's error is passed on unchanged |
| Algebraic.DecodeToken | notation_test.go:16-62 | a syntax error is passed on; a token without a position gives PositionRequired; a decoded move is legal and the only one the token admits; NoLegalMove exactly when none is admitted, and AmbiguousMove otherwise |
| Algebraic.DecodeTokenUnique | notation_test.go:16-62 | a token that admits exactly one legal entry decodes to that entry, as the generator lists it |
| Algebraic.MarkOf | notation_test.go:387-420 | writes # exactly for a checkmating move, and + exactly for a checking move that does not mate |
| San.Disambiguation | notation_test.go:432-434 | hints are the move's own source coordinates, and they tell it apart from every same-kind rival to the same square; none exactly when there is no rival; the rank exactly when a rival shares the file; both exactly when rivals share the file and the rank |
| San.TokenFor | notation_test.go:387-402 | fails (InconsistentMove) exactly for a non-castle with an empty source square or a promotion by a non-pawn; the token is a castle exactly for a castling move, on the side of its tag; its mark is MarkOf the move; a non-castle token names the piece on the source square, carries the capture marker exactly for a capture and admits the move; a pawn names its file exactly when it captures, and never its rank; a piece's hints are its Disambiguation |
| San.Encode | notation_test.go:387-402 | succeeds exactly when TokenFor does, otherwise fails with InconsistentMove; its text passes SAN's syntax check and reads back as that token |
| San.Syntax | notation_test.go:48-53 | accepts exactly the parsable texts in which a pawn's source hint comes with "x" |
| San.Decode | notation_test.go:16-62 | syntax errors come first; no position gives PositionRequired; a decoded move is legal, admitted by the text and the only one admitted; with a position, a well-formed text fails with NoLegalMove exactly when it admits no legal move, and otherwise only with AmbiguousMove |
| San.DecodeUnique | notation_test.go:16-62 | a well-formed text that admits exactly one legal entry decodes to that entry |
| San.DecodeIgnoresMarks | notation_test.go:16-62 | a text that differs from a well-formed one only in its capture marker or check mark, as long as a pawn move that names a source file or rank keeps its "x", passes the syntax check and decodes to the same result |
| San.RoundTrip | notation_test.go:422-468 | in a well-formed position every legal move encodes, and its text decodes to that move |
| Lan.TokenFor | notation_test.go:404-420 | fails exactly as SAN's does; the token is a castle exactly for a castling move, on the side of its tag; its mark is MarkOf the move; a non-castle token names the piece on the source square and the full source square, carries the capture marker exactly for a capture and admits the move |
| Lan.Encode | notation_test.go:404-420 | succeeds exactly when TokenFor does, otherwise fails with InconsistentMove; its text passes LAN's syntax check and reads back as that token |
| Lan.Syntax | notation_test.go:343-364 | accepts exactly the parsable texts that name a full source square for every non-castle |
| Lan.Decode | notation_test.go:343-364 | syntax errors come first; no position gives PositionRequired; a decoded move is legal, admitted by the text and the only one admitted; with a position, a well-formed text fails with NoLegalMove exactly when it admits no legal move, and otherwise only with AmbiguousMove |
| Lan.DecodeUnique | notation_test.go:343-364 | a well-formed text that names exactly one legal entry decodes to that entry |
| Lan.DecodeIgnoresMarks | notation_test.go:343-364 | a text that differs from a well-formed one only in its capture marker or check mark passes the syntax check and decodes to the same result |
| Lan.RoundTrip | notation_test.go:449-460 | when sources are occupied, only pawns promote, moves are distinct and castles unique, every legal move encodes and decodes back to itself |
| Uci.PromoOfLetter | notation_test.go:180-185 | only q, r, b and n name a promotion, and each reads back to its letter |
| Uci.Encode | notation_test.go:64-95 | the text has four characters, or five with a promotion; Uci.ParseEncode and Uci.EncodeInjective state what it encodes |
| Uci.Parse | notation_test.go:166-185 | accepted text is the encoding of the parsed squares and promotion; InvalidPromotionPiece exactly for five characters with two valid squares and a fifth letter outside q, r, b, n; every error is a syntax error |
| Uci.ParseEncode | notation_test.go:64-84 | Parse reads the squares and promotion back from the text of every move |
| Uci.EncodeInjective | notation_test.go:97-193 | two moves have the same text exactly when they share source, destination and promotion |
| Uci.Decode | notation_test.go:97-216 | syntax errors come first; no position gives PositionRequired; a decoded move is legal, has the given text and is the only such move; NoLegalMove exactly when no legal move has that text, and AmbiguousMove for any other failure with a position |
| Uci.DecodeUnique | notation_test.go:97-216 | a text that exactly one legal entry has decodes to that entry, with its generator tags |
| Uci.RoundTrip | notation_test.go:196-206 | when moves are distinct, the text of every legal move decodes to that very move, generator tags included |
| Notations.Encode | notation_test.go:64-95 | the coordinate notation never fails to encode, legal move or not |
| Notations.Decode | notation_test.go:196-206 | a decoded move is always one of the position's legal moves |
| Notations.RoundTrip | notation_test.go:422-468 | in every notation, in a well-formed position, every legal move encodes and decodes back to itself |
| Notations.EncodeNeverFails | notation_test.go:449-468 | no notation fails to encode a legal move whose source is occupied and which promotes only a pawn |
| Notations.DecodeNeedsPosition | notation_test.go:166-185 | without a position no text decodes |
| Scenarios.UciEncodeExamples | notation_test.go:64-84 | {e2,e4} encodes to "e2e4" and {a7,a8,Queen} to "a7a8q" |
| Scenarios.UciEncodeIgnoresLegality | notation_test.go:86-95 | e2e5 is not a legal move of the initial position, yet encodes to "e2e5" |
| Scenarios.UciDecodeDoublePush | notation_test.go:109-116 | "e2e4" decodes to the untagged double push in the initial position |
| Scenarios.UciDecodePromotion | notation_test.go:117-124 | "a7a8q" decodes to the queen promotion and not to an under-promotion |
| Scenarios.UciDecodeKeepsGeneratorTags | notation_test.go:125-193 | d1d8, d6e5, f1b5, e1g1, e4f3 and e5d6 decode to the generator's moves with Check|Capture, Capture, Check, Check|KingSideCastle, Check|EnPassant and EnPassant |
| Scenarios.UciDecodeRejectsSyntax | notation_test.go:166-185 | with or without a position: "e2e" and "e9e4" give InvalidSyntax, and "a7a8x" gives InvalidPromotionPiece |
| Scenarios.SanDecodeRejectsUnreachable | notation_test.go:17-22 | "e5" gives NoLegalMove in the initial position |
| Scenarios.SanDecodeRejectsAmbiguous | notation_test.go:23-28 | "Nd7" gives AmbiguousMove when knights on b8 and f6 both reach d7 |
| Scenarios.SanDecodeRejectsSyntax | notation_test.go:29-53 | whatever the position, "O-O-O-O", "dx4", "nf3" and "bf4" give InvalidSyntax |
| Scenarios.SanPromotionWithCheck | notation_test.go:387-402 | the checking promotion b7-b8=Q encodes to "b8=Q+" in SAN |
| Scenarios.LanPromotionWithCheck | notation_test.go:404-420 | the same move encodes to "b7b8=Q+" in LAN |
| Scenarios.SanRookSharingRank | notation_test.go:432 | with rooks on a1 and f1 both reaching e1, the rook from a1 is written "Rae1" |
| Scenarios.SanRooksApart | notation_test.go:433 | with rooks on f1 and d6 both reaching d1, the rook from f1 is written "Rfd1" |
| Scenarios.SanKnightWithCheck | notation_test.go:434 | with knights on h4 and d4 both reaching f5, the checking move from h4 is written "Nhf5+" |

## Left out

- FEN parsing, legal-move generation, move application and check or checkmate detection. The legal-move list, with its tags, and the board are inputs.
- The resulting-position checks (notation_test.go:207-213): en-passant target, clocks and side to move belong to move application. The model's `Move` has no resulting-position field.
- PGN parsing and game replay (notation_test.go:441-447). Only the obligation that encoding a legal move never fails is kept, as `Notations.EncodeNeverFails` and the round-trip lemmas.
- The panic recovery of `safeEncode` (notation_test.go:470-477). Encoding returns an explicit error instead.
- Benchmarks (notation_test.go:220-385, 480-496) and board drawing in failure messages (notation_test.go:59).
- The test positions beyond the initial position and the two promotion positions. The tag and disambiguation scenarios hold for every position whose generator lists the moves in question, and whose board holds the pieces named in their requires.
- Scenarios.UciDecodeKeepsGeneratorTags: stated for any position with distinct moves that lists the tagged move, not for the one FEN of each test case.
- SAN and LAN decoding in the model parse the text and filter the legal moves by the parsed query. The capture marker and check mark are advisory: a text whose "x" or "+" disagrees with the matched move still decodes, as long as a SAN pawn move that names a source file or rank keeps its "x" ("ed5" is a syntax error). San.DecodeIgnoresMarks, Lan.DecodeIgnoresMarks and the DecodeUnique lemmas state this.

The model makes three choices of its own. The first two follow from the tags the tests expect; the third is left open by the tests:

- En-passant moves carry `EnPassant` without `Capture` (notation_test.go:161 and 190). So SAN and LAN write the capture marker for a move tagged either `Capture` or `EnPassant`.
- A castle that gives check is tagged `Check|KingSideCastle` (notation_test.go:153). So a castle token carries the move's mark, `O-O+` or `O-O#`, like any other SAN move.
- LAN decoding checks the piece kind on the source square as well as the squares and the promotion. No test fixes this; the decoding benchmark (notation_test.go:343-364) agrees with either reading. When every source square is occupied, this only rejects texts whose piece letter is wrong.

=== FILE: algebraic.dfy ===
/**
  The token grammar shared by standard algebraic notation (SAN) and long
  algebraic notation (LAN):

    O-O | O-O-O                                        followed by an optional + or #
    [KQRBN]? [a-h]? [1-8]? x? [a-h][1-8] (=[QRBN])?    followed by an optional + or #

  Format writes a token; Parse reads one and is its exact inverse. The SAN and LAN
  modules add their own restrictions on top and resolve a token against a
  position with DecodeToken.
*/
module Algebraic {
  import opened Wrappers
  import opened Chess
  import opened Matching

  datatype CastleSide = KingSide | QueenSide

  /** The trailing check (+) or checkmate (#) mark. */
  datatype Suffix = NoMark | CheckMark | MateMark

  /**
    A parsed move text. A MoveToken carries the piece kind (Pawn when no letter
    is written), the optional source file and rank hints, the capture marker, the
    destination, the promotion and the suffix mark.
  */
  datatype Token =
    | CastleToken(side: CastleSide, suffix: Suffix)
    | MoveToken(kind: PieceKind, fileHint: Option<Coord>, rankHint: Option<Coord>,
                capture: bool, dest: Square, promo: Option<PromoKind>, suffix: Suffix)

  function CastleText(side: CastleSide): string
  {
    if side == KingSide then "O-O" else "O-O-O"
  }

  function SuffixText(x: Suffix): string
  {
    match x
    case NoMark => ""
    case CheckMark => "+"
    case MateMark => "#"
  }

  function PromoText(p: Option<PromoKind>): string
  {
    match p
    case None => ""
    case Some(k) => ['=', PieceLetter(k)]
  }

  function PieceText(k: PieceKind): string
  {
    if k == Pawn then "" else [PieceLetter(k)]
  }

  function HintText(f: Option<Coord>, r: Option<Coord>): string
  {
    (if f.Some? then [FileChar(f.value)] else []) + (if r.Some? then [RankChar(r.value)] else [])
  }

  function CaptureText(capture: bool): string
  {
    if capture then "x" else ""
  }

  /**
    The text of a token. The destination is followed by the promotion and then by
    the check or checkmate mark, always in that order.
  */
  function Format(t: Token): (s: string)
    ensures t.CastleToken? ==> s == CastleText(t.side) + SuffixText(t.suffix)
    ensures t.MoveToken? ==>
      var tail := Label(t.dest) + PromoText(t.promo) + SuffixText(t.suffix);
      |tail| <= |s| && s[|s| - |tail|..] == tail
  {
    match t
    case CastleToken(side, x) => CastleText(side) + SuffixText(x)
    case MoveToken(k, f, r, cap, d, p, x) =>
      PieceText(k) + HintText(f, r) + CaptureText(cap) + Label(d) + PromoText(p) + SuffixText(x)
  }

  function SplitSuffix(s: string): (r: (string, Suffix))
    ensures r.0 + SuffixText(r.1) == s
  {
    if |s| > 0 && s[|s| - 1] == '+' then (s[..|s| - 1], CheckMark)
    else if |s| > 0 && s[|s| - 1] == '#' then (s[..|s| - 1], MateMark)
    else (s, NoMark)
  }

  /** Splits off "=X"; a promotion letter outside Q, R, B, N is an error of its own. */
  function SplitPromotion(b: string): (r: Result<(string, Option<PromoKind>), NotationError>)
    ensures r.Success? ==> r.value.0 + PromoText(r.value.1) == b
    ensures r.Failure? <==> |b| >= 2 && b[|b| - 2] == '=' && b[|b| - 1] !in "QRBN"
    ensures r.Failure? ==> r.error == InvalidPromotionPiece
  {
    if |b| >= 2 && b[|b| - 2] == '=' then
      match KindOfLetter(b[|b| - 1])
      case Some(k) =>
        if k != King then Success((b[..|b| - 2], Some(k))) else Failure(InvalidPromotionPiece)
      case None => Failure(InvalidPromotionPiece)
    else Success((b, None))
  }

  function SplitCapture(h: string): (r: (string, bool))
    ensures r.0 + CaptureText(r.1) == h
  {
    if |h| > 0 && h[|h| - 1] == 'x' then (h[..|h| - 1], true) else (h, false)
  }

  /** A leading K, Q, R, B or N names the piece; anything else leaves a pawn move. */
  function SplitPiece(h: string): (r: (PieceKind, string))
    ensures PieceText(r.0) + r.1 == h
  {
    if |h| > 0 && KindOfLetter(h[0]).Some? then (KindOfLetter(h[0]).value, h[1..]) else (Pawn, h)
  }

  /** The source hints: nothing, a file, a rank, or a file and a rank. */
  function ParseHints(h: string): (r: Option<(Option<Coord>, Option<Coord>)>)
    ensures r.Some? ==> HintText(r.value.0, r.value.1) == h
  {
    if |h| == 0 then Some((None, None))
    else if |h| == 1 && IsFileChar(h[0]) then Some((FileOf(h[0]), None))
    else if |h| == 1 && IsRankChar(h[0]) then Some((None, RankOf(h[0])))
    else if |h| == 2 && IsFileChar(h[0]) && IsRankChar(h[1]) then Some((FileOf(h[0]), RankOf(h[1])))
    else None
  }

  /**
    Reads a token. Every text it accepts is the text of the token it returns, so
    nothing outside the grammar gets through; a bad promotion letter is reported
    as InvalidPromotionPiece and everything else as InvalidSyntax.
  */
  function Parse(s: string): (r: Result<Token, NotationError>)
    ensures r.Success? ==> Format(r.value) == s
    ensures r.Failure? ==> r.error == InvalidSyntax || r.error == InvalidPromotionPiece
  {
    var (b, x) := SplitSuffix(s);
    if b == CastleText(KingSide) then Success(CastleToken(KingSide, x))
    else if b == CastleText(QueenSide) then Success(CastleToken(QueenSide, x))
    else ParseBody(b, x)
  }

  /** Reads a non-castling move whose suffix mark has been split off. */
  function ParseBody(b: string, x: Suffix): (r: Result<Token, NotationError>)
    ensures r.Success? ==> r.value.MoveToken? && Format(r.value) == b + SuffixText(x)
    ensures r.Failure? ==> r.error == InvalidSyntax || r.error == InvalidPromotionPiece
  {
    match SplitPromotion(b)
    case Failure(e) => Failure(e)
    case Success((c, p)) => ParseStem(c, p, x)
  }

  /** Reads the part of a move up to and including its destination square. */
  function ParseStem(c: string, p: Option<PromoKind>, x: Suffix): (r: Result<Token, NotationError>)
    ensures r.Success? ==> r.value.MoveToken? && Format(r.value) == c + PromoText(p) + SuffixText(x)
    ensures r.Failure? ==> r.error == InvalidSyntax
  {
    if |c| < 2 then Failure(InvalidSyntax)
    else
      match SquareOf(c[|c| - 2..])
      case None => Failure(InvalidSyntax)
      case Some(d) =>
        assert c == c[..|c| - 2] + Label(d);
        ParseHead(c[..|c| - 2], d, p, x)
  }

  /** Reads the piece letter, the source hints and the capture marker. */
  function ParseHead(h: string, d: Square, p: Option<PromoKind>, x: Suffix): (r: Result<Token, NotationError>)
    ensures r.Success? ==> r.value.MoveToken? && Format(r.value) == h + Label(d) + PromoText(p) + SuffixText(x)
    ensures r.Failure? ==> r.error == InvalidSyntax
  {
    var (lead, cap) := SplitCapture(h);
    var (k, hints) := SplitPiece(lead);
    match ParseHints(hints)
    case None => Failure(InvalidSyntax)
    case Some((f, r)) => Success(MoveToken(k, f, r, cap, d, p, x))
  }

  lemma SplitSuffixOf(b: string, x: Suffix)
    requires |b| > 0 ==> b[|b| - 1] != '+' && b[|b| - 1] != '#'
    ensures SplitSuffix(b + SuffixText(x)) == (b, x)
  {
    var s := b + SuffixText(x);
    if x == NoMark {
      assert s == b;
    } else {
      assert s[..|s| - 1] == b;
      assert s[|s| - 1] == SuffixText(x)[0];
    }
  }

  lemma NotCastleText(b: string, i: nat)
    requires i < |b| && IsRankChar(b[i])
    ensures b != CastleText(KingSide) && b != CastleText(QueenSide)
  {
  }

  lemma SplitPromotionOf(c: string, p: Option<PromoKind>)
    requires |c| >= 2 && IsFileChar(c[|c| - 2])
    ensures SplitPromotion(c + PromoText(p)) == Success((c, p))
  {
    var b := c + PromoText(p);
    if p.Some? {
      assert b[..|b| - 2] == c;
      assert b[|b| - 2] == '=' && b[|b| - 1] == PieceLetter(p.value);
      PieceLetterRoundTrip(p.value);
    } else {
      assert b == c;
    }
  }

  lemma SplitCaptureOf(h: string, cap: bool)
    requires |h| > 0 ==> h[|h| - 1] != 'x'
    ensures SplitCapture(h + CaptureText(cap)) == (h, cap)
  {
    var s := h + CaptureText(cap);
    if cap {
      assert s[..|h|] == h;
      assert s[|s| - 1] == 'x';
    } else {
      assert s == h;
    }
  }

  lemma SplitPieceOf(k: PieceKind, hints: string)
    requires |hints| > 0 ==> KindOfLetter(hints[0]).None?
    ensures SplitPiece(PieceText(k) + hints) == (k, hints)
  {
    var s := PieceText(k) + hints;
    if k != Pawn {
      PieceLetterRoundTrip(k);
      assert s[0] == PieceLetter(k);
      assert s[1..] == hints;
    } else {
      assert s == hints;
    }
  }

  lemma ParseHintsOf(f: Option<Coord>, r: Option<Coord>)
    ensures ParseHints(HintText(f, r)) == Some((f, r))
  {
    if f.Some? {
      assert FileOf(FileChar(f.value)) == f;
    }
    if r.Some? {
      assert RankOf(RankChar(r.value)) == r;
    }
  }

  lemma ParseHeadOf(k: PieceKind, f: Option<Coord>, r: Option<Coord>, cap: bool,
                    d: Square, p: Option<PromoKind>, x: Suffix)
    ensures ParseHead(PieceText(k) + HintText(f, r) + CaptureText(cap), d, p, x)
         == Success(MoveToken(k, f, r, cap, d, p, x))
  {
    var lead := PieceText(k) + HintText(f, r);
    SplitCaptureOf(lead, cap);
    SplitPieceOf(k, HintText(f, r));
    ParseHintsOf(f, r);
  }

  lemma ParseStemOf(head: string, d: Square, p: Option<PromoKind>, x: Suffix)
    ensures ParseStem(head + Label(d), p, x) == ParseHead(head, d, p, x)
  {
    var c := head + Label(d);
    assert c[|c| - 2..] == Label(d);
    assert c[..|c| - 2] == head;
    LabelRoundTrip(d);
  }

  /** Parse reads back every token Format writes. */
  lemma ParseFormat(t: Token)
    ensures Parse(Format(t)) == Success(t)
  {
    match t
    case CastleToken(side, x) =>
      SplitSuffixOf(CastleText(side), x);
    case MoveToken(k, f, r, cap, d, p, x) =>
      var head := PieceText(k) + HintText(f, r) + CaptureText(cap);
      var stem := head + Label(d);
      var body := stem + PromoText(p);
      assert Format(t) == body + SuffixText(x);
      assert stem[|head| + 1] == RankChar(d.rank);
      assert stem[|stem| - 2] == FileChar(d.file);
      assert body[|head| + 1] == RankChar(d.rank);
      SplitSuffixOf(body, x);
      NotCastleText(body, |head| + 1);
      SplitPromotionOf(stem, p);
      ParseStemOf(head, d, p, x);
      ParseHeadOf(k, f, r, cap, d, p, x);
  }

  /**
    The mark an encoder writes after a move: # for a checkmating move, + for any
    other checking move, nothing otherwise.
  */
  function MarkOf(m: Move): (x: Suffix)
    ensures x == MateMark <==> Checkmate in m.tags
    ensures x == CheckMark <==> Check in m.tags && Checkmate !in m.tags
  {
    if Checkmate in m.tags then MateMark else if Check in m.tags then CheckMark else NoMark
  }

  /** The query a token puts to the legal-move list. */
  function QueryOf(t: Token): Query
  {
    match t
    case CastleToken(KingSide, _) => ByTag(KingSideCastle)
    case CastleToken(QueenSide, _) => ByTag(QueenSideCastle)
    case MoveToken(k, f, r, _, d, p, _) => BySquares(Some(k), f, r, d, p)
  }

  /**
    The castle token of a move tagged as castling, king side first, with its mark;
    None for any other move.
  */
  function CastleTokenFor(m: Move): (r: Option<Token>)
    ensures r.Some? <==> IsCastle(m)
    ensures r.Some? ==> r.value.CastleToken? && r.value.suffix == MarkOf(m)
    ensures r.Some? && r.value.side == KingSide ==> KingSideCastle in m.tags
    ensures r.Some? && r.value.side == QueenSide ==> QueenSideCastle in m.tags && KingSideCastle !in m.tags
  {
    if KingSideCastle in m.tags then Some(CastleToken(KingSide, MarkOf(m)))
    else if QueenSideCastle in m.tags then Some(CastleToken(QueenSide, MarkOf(m)))
    else None
  }

  /** The text of an encoder's token, or the encoder's error. */
  function Write(t: Result<Token, NotationError>): (r: Result<string, NotationError>)
    ensures r.Success? <==> t.Success?
    ensures r.Failure? ==> r.error == t.error
    ensures r.Success? ==> Parse(r.value) == t
  {
    match t
    case Failure(e) => Failure(e)
    case Success(tok) =>
      ParseFormat(tok);
      Success(Format(tok))
  }

  /**
    Resolves the outcome of a syntax check against an optional position. A syntax
    error is returned as it is; a token needs a position. The capture marker and
    the check mark are advisory: the move returned carries the generator's tags.
  */
  function DecodeToken(pos: Option<Position>, syntax: Result<Token, NotationError>): (r: Result<Move, NotationError>)
    ensures syntax.Failure? ==> r == Failure(syntax.error)
    ensures syntax.Success? && pos.None? ==> r == Failure(PositionRequired)
    ensures r.Success? ==> pos.Some? && syntax.Success? && r.value in pos.value.legal
    ensures r.Success? ==> Matches(pos.value, QueryOf(syntax.value), r.value)
    ensures r.Success? ==> forall mv :: mv in pos.value.legal && Matches(pos.value, QueryOf(syntax.value), mv) ==> mv == r.value
    ensures pos.Some? && syntax.Success? ==>
      (r == Failure(NoLegalMove) <==> forall mv :: mv in pos.value.legal ==> !Matches(pos.value, QueryOf(syntax.value), mv))
    ensures pos.Some? && syntax.Success? && r.Failure? ==> r.error == NoLegalMove || r.error == AmbiguousMove
  {
    match syntax
    case Failure(e) => Failure(e)
    case Success(t) => if pos.None? then Failure(PositionRequired) else Select(pos.value, QueryOf(t))
  }

  /** A token that admits exactly one entry of the legal-move list decodes to that entry. */
  lemma DecodeTokenUnique(pos: Position, t: Token, i: nat)
    requires i < |pos.legal| && Matches(pos, QueryOf(t), pos.legal[i])
    requires forall j :: 0 <= j < |pos.legal| && j != i ==> !Matches(pos, QueryOf(t), pos.legal[j])
    ensures DecodeToken(Some(pos), Success(t)) == Success(pos.legal[i])
  {
    SelectUnique(pos, QueryOf(t), i);
  }
}

=== FILE: chess.dfy ===
/**
  The data the notation codecs work on: squares and their labels, piece kinds and
  their letters, moves with their tag sets, and the part of a position that the
  codecs consult (which piece kind stands on each occupied square, and the
  legal-move list produced by the move generator).
*/
module Chess {
  import opened Wrappers

  /** A file (a..h as 0..7) or a rank (1..8 as 0..7). */
  type Coord = x: int | 0 <= x < 8

  datatype Square = Square(file: Coord, rank: Coord)

  predicate IsFileChar(c: char) { 'a' <= c <= 'h' }

  predicate IsRankChar(c: char) { '1' <= c <= '8' }

  function FileChar(f: Coord): (c: char)
    ensures IsFileChar(c)
  {
    (('a' as int) + f) as char
  }

  function RankChar(r: Coord): (c: char)
    ensures IsRankChar(c)
  {
    (('1' as int) + r) as char
  }

  /** The file a letter names, if it is one of a..h. */
  function FileOf(c: char): (r: Option<Coord>)
    ensures r.Some? <==> IsFileChar(c)
    ensures r.Some? ==> FileChar(r.value) == c
  {
    if IsFileChar(c) then Some((c as int) - ('a' as int)) else None
  }

  /** The rank a digit names, if it is one of 1..8. */
  function RankOf(c: char): (r: Option<Coord>)
    ensures r.Some? <==> IsRankChar(c)
    ensures r.Some? ==> RankChar(r.value) == c
  {
    if IsRankChar(c) then Some((c as int) - ('1' as int)) else None
  }

  /** The canonical two-character label of a square, e.g. "e4". */
  function Label(sq: Square): (t: string)
    ensures |t| == 2 && IsFileChar(t[0]) && IsRankChar(t[1])
  {
    [FileChar(sq.file), RankChar(sq.rank)]
  }

  /** The square a two-character label names; None for anything else. */
  function SquareOf(t: string): (r: Option<Square>)
    ensures r.Some? <==> |t| == 2 && IsFileChar(t[0]) && IsRankChar(t[1])
    ensures r.Some? ==> Label(r.value) == t
  {
    if |t| == 2 && IsFileChar(t[0]) && IsRankChar(t[1])
    then Some(Square(FileOf(t[0]).value, RankOf(t[1]).value))
    else None
  }

  lemma LabelRoundTrip(sq: Square)
    ensures SquareOf(Label(sq)) == Some(sq)
  {
    assert FileOf(FileChar(sq.file)) == Some(sq.file);
    assert RankOf(RankChar(sq.rank)) == Some(sq.rank);
  }

  datatype PieceKind = King | Queen | Rook | Bishop | Knight | Pawn

  /** The kinds a pawn may promote to. */
  type PromoKind = k: PieceKind | k.Queen? || k.Rook? || k.Bishop? || k.Knight? witness Queen

  /** The upper-case letter of a non-pawn piece kind in algebraic notation. */
  function PieceLetter(k: PieceKind): (c: char)
    requires k != Pawn
  {
    match k
    case King => 'K'
    case Queen => 'Q'
    case Rook => 'R'
    case Bishop => 'B'
    case Knight => 'N'
  }

  /** The piece kind an upper-case letter names; only K, Q, R, B and N name one. */
  function KindOfLetter(c: char): (r: Option<PieceKind>)
    ensures r.Some? <==> c in "KQRBN"
    ensures r.Some? ==> r.value != Pawn && PieceLetter(r.value) == c
  {
    match c
    case 'K' => Some(King)
    case 'Q' => Some(Queen)
    case 'R' => Some(Rook)
    case 'B' => Some(Bishop)
    case 'N' => Some(Knight)
    case _ => None
  }

  lemma PieceLetterRoundTrip(k: PieceKind)
    requires k != Pawn
    ensures KindOfLetter(PieceLetter(k)) == Some(k)
  {
  }

  /** Tags the move generator attaches to a move. */
  datatype MoveTag = Check | Checkmate | Capture | EnPassant | KingSideCastle | QueenSideCastle

  /**
    A move: source and destination squares, the promotion kind when a pawn
    promotes, and the generator's tags.
  */
  datatype Move = Move(source: Square, dest: Square, promo: Option<PromoKind>, tags: set<MoveTag>)

  /** The capture marker is due for captures and for en-passant captures. */
  predicate IsCapture(m: Move) { Capture in m.tags || EnPassant in m.tags }

  predicate IsCastle(m: Move) { KingSideCastle in m.tags || QueenSideCastle in m.tags }

  /** Two moves that no notation can tell apart: same squares, same promotion. */
  predicate SameSquares(a: Move, b: Move)
  {
    a.source == b.source && a.dest == b.dest && a.promo == b.promo
  }

  /**
    What a codec may ask of a position: the kind of the piece on each occupied
    square, and the legal moves of the side to move as the generator lists them.
  */
  datatype Position = Position(board: map<Square, PieceKind>, legal: seq<Move>)

  predicate IsPawnMove(pos: Position, m: Move)
  {
    m.source in pos.board && pos.board[m.source] == Pawn
  }

  /** Every legal move starts from an occupied square. */
  predicate SourcesOccupied(pos: Position)
  {
    forall m | m in pos.legal :: m.source in pos.board
  }

  /** Only pawns promote. */
  predicate OnlyPawnsPromote(pos: Position)
  {
    forall m | m in pos.legal && m.promo.Some? :: IsPawnMove(pos, m)
  }

  /** No two entries of the legal-move list share squares and promotion. */
  predicate DistinctMoves(pos: Position)
  {
    forall i, j | 0 <= i < |pos.legal| && 0 <= j < |pos.legal| && i != j ::
      !SameSquares(pos.legal[i], pos.legal[j])
  }

  /** At most one legal move castles on each side. */
  predicate CastlesUnique(pos: Position)
  {
    forall i, j | 0 <= i < |pos.legal| && 0 <= j < |pos.legal| && i != j ::
      && !(KingSideCastle in pos.legal[i].tags && KingSideCastle in pos.legal[j].tags)
      && !(QueenSideCastle in pos.legal[i].tags && QueenSideCastle in pos.legal[j].tags)
  }

  /**
    Two pawn moves to one square with one promotion are both captures, from
    different files: a push needs an empty square and a capture an enemy piece
    (or the en-passant target, which no pawn can push to).
  */
  predicate PawnMovesDistinct(pos: Position)
  {
    forall a, b | a in pos.legal && b in pos.legal
      && IsPawnMove(pos, a) && IsPawnMove(pos, b)
      && a.dest == b.dest && a.promo == b.promo && a.source != b.source ::
      IsCapture(a) && IsCapture(b) && a.source.file != b.source.file
  }

  /** The guarantees of the move generator that the codecs rely on. */
  predicate WellFormed(pos: Position)
  {
    && SourcesOccupied(pos)
    && OnlyPawnsPromote(pos)
    && DistinctMoves(pos)
    && CastlesUnique(pos)
    && PawnMovesDistinct(pos)
  }

  /** Errors a codec reports. */
  datatype NotationError =
    | InvalidSyntax
    | InvalidPromotionPiece
    | PositionRequired
    | NoLegalMove
    | AmbiguousMove
    | InconsistentMove
}

=== FILE: lan.dfy ===
/**
  Long algebraic notation (LAN): like SAN, but every non-castling move names its
  full source square ("b7b8=Q+", "Ne5xf7", "O-O").
*/
module Lan {
  import opened Wrappers
  import opened Chess
  import opened Matching
  import opened Algebraic

  /** LAN names the full source square of every non-castling move. */
  predicate FullSource(t: Token)
  {
    t.MoveToken? ==> t.fileHint.Some? && t.rankHint.Some?
  }

  /**
    The LAN token of a move: castling from the move's tags, otherwise the kind of
    the piece on the source square, the source square itself, the capture marker,
    the destination, the promotion and the check mark.
  */
  function TokenFor(pos: Position, m: Move): (r: Result<Token, NotationError>)
    ensures r.Failure? <==> !IsCastle(m) && (m.source !in pos.board || (m.promo.Some? && pos.board[m.source] != Pawn))
    ensures r.Failure? ==> r.error == InconsistentMove
    ensures r.Success? ==> FullSource(r.value) && r.value.suffix == MarkOf(m)
    ensures r.Success? ==> (r.value.CastleToken? <==> IsCastle(m))
    ensures r.Success? && r.value.CastleToken? && r.value.side == KingSide ==> KingSideCastle in m.tags
    ensures r.Success? && r.value.CastleToken? && r.value.side == QueenSide ==> QueenSideCastle in m.tags && KingSideCastle !in m.tags
    ensures r.Success? && r.value.MoveToken? ==>
      && r.value.fileHint == Some(m.source.file) && r.value.rankHint == Some(m.source.rank)
      && r.value.kind == pos.board[m.source]
      && r.value.capture == IsCapture(m)
      && Matches(pos, QueryOf(r.value), m)
  {
    if IsCastle(m) then Success(CastleTokenFor(m).value)
    else if m.source !in pos.board then Failure(InconsistentMove)
    else
      var k := pos.board[m.source];
      if m.promo.Some? && k != Pawn then Failure(InconsistentMove)
      else Success(MoveToken(k, Some(m.source.file), Some(m.source.rank), IsCapture(m), m.dest, m.promo, MarkOf(m)))
  }

  /** The LAN text of a move: the text of its token, which LAN's own syntax check reads back. */
  function Encode(pos: Position, m: Move): (r: Result<string, NotationError>)
    ensures r.Success? <==> TokenFor(pos, m).Success?
    ensures r.Failure? ==> r.error == InconsistentMove
    ensures r.Success? ==> Parse(r.value) == TokenFor(pos, m) && Syntax(r.value) == TokenFor(pos, m)
  {
    Write(TokenFor(pos, m))
  }

  /** The syntax check, which needs no position. */
  function Syntax(s: string): (r: Result<Token, NotationError>)
    ensures r.Success? ==> Format(r.value) == s && FullSource(r.value)
    ensures r.Success? <==> Parse(s).Success? && FullSource(Parse(s).value)
    ensures r.Failure? ==> r.error == InvalidSyntax || r.error == InvalidPromotionPiece
  {
    match Parse(s)
    case Failure(e) => Failure(e)
    case Success(t) => if FullSource(t) then Success(t) else Failure(InvalidSyntax)
  }

  /**
    Decodes LAN text against a position: the source and destination squares, the
    promotion and the piece kind must all agree with one legal move. A well-formed
    text that names no legal move is NoLegalMove.
  */
  function Decode(pos: Option<Position>, s: string): (r: Result<Move, NotationError>)
    ensures Syntax(s).Failure? ==> r == Failure(Syntax(s).error)
    ensures Syntax(s).Success? && pos.None? ==> r == Failure(PositionRequired)
    ensures r.Success? ==> pos.Some? && Syntax(s).Success? && r.value in pos.value.legal
    ensures r.Success? ==> Matches(pos.value, QueryOf(Syntax(s).value), r.value)
    ensures r.Success? ==> forall mv :: mv in pos.value.legal && Matches(pos.value, QueryOf(Syntax(s).value), mv) ==> mv == r.value
    ensures pos.Some? && Syntax(s).Success? ==>
      (r == Failure(NoLegalMove) <==> forall mv :: mv in pos.value.legal ==> !Matches(pos.value, QueryOf(Syntax(s).value), mv))
    ensures pos.Some? && Syntax(s).Success? && r.Failure? ==> r.error == NoLegalMove || r.error == AmbiguousMove
  {
    DecodeToken(pos, Syntax(s))
  }

  /** A well-formed text that names exactly one entry of the legal-move list decodes to that entry. */
  lemma DecodeUnique(pos: Position, s: string, i: nat)
    requires Syntax(s).Success?
    requires i < |pos.legal| && Matches(pos, QueryOf(Syntax(s).value), pos.legal[i])
    requires forall j :: 0 <= j < |pos.legal| && j != i ==> !Matches(pos, QueryOf(Syntax(s).value), pos.legal[j])
    ensures Decode(Some(pos), s) == Success(pos.legal[i])
  {
    DecodeTokenUnique(pos, Syntax(s).value, i);
  }

  /**
    The capture marker and the check mark are advisory: the text of any token that
    names a full source square and puts the same query as s decodes as s does.
  */
  lemma DecodeIgnoresMarks(pos: Option<Position>, s: string, t: Token)
    requires Syntax(s).Success? && FullSource(t)
    requires QueryOf(t) == QueryOf(Syntax(s).value)
    ensures Syntax(Format(t)) == Success(t)
    ensures Decode(pos, Format(t)) == Decode(pos, s)
  {
    ParseFormat(t);
  }

  /** The LAN text of a legal move decodes to that very move, tags included. */
  lemma RoundTrip(pos: Position, m: Move)
    requires SourcesOccupied(pos) && OnlyPawnsPromote(pos) && DistinctMoves(pos) && CastlesUnique(pos)
    requires m in pos.legal
    ensures Encode(pos, m).Success?
    ensures Decode(Some(pos), Encode(pos, m).value) == Success(m)
  {
    var i :| 0 <= i < |pos.legal| && pos.legal[i] == m;
    var t := TokenFor(pos, m).value;
    var q := QueryOf(t);
    forall j | 0 <= j < |pos.legal| && j != i
      ensures !Matches(pos, q, pos.legal[j])
    {
      assert !SameSquares(pos.legal[i], pos.legal[j]);
    }
    SelectUnique(pos, q, i);
  }
}

=== FILE: matching.dfy ===
/**
  The matching routine shared by the three decoders: a query names what the text
  fixed about a move, the position's legal moves are filtered by it, and decoding
  succeeds only when exactly one legal move survives. The move returned is the
  generator's own entry, tags included.
*/
module Matching {
  import opened Wrappers
  import opened Chess

  /**
    ByTag selects castling moves by their tag. BySquares constrains the piece kind
    on the source square, the source file and rank when given, the destination and
    the promotion.
  */
  datatype Query =
    | ByTag(tag: MoveTag)
    | BySquares(kind: Option<PieceKind>, file: Option<Coord>, rank: Option<Coord>,
                dest: Square, promo: Option<PromoKind>)

  predicate Matches(pos: Position, q: Query, m: Move)
  {
    match q
    case ByTag(tag) => tag in m.tags
    case BySquares(kind, file, rank, dest, promo) =>
      && m.dest == dest
      && m.promo == promo
      && (kind.Some? ==> m.source in pos.board && pos.board[m.source] == kind.value)
      && (file.Some? ==> m.source.file == file.value)
      && (rank.Some? ==> m.source.rank == rank.value)
  }

  /** The entries of s that the query admits, in order. */
  function Filter(pos: Position, q: Query, s: seq<Move>): (r: seq<Move>)
    ensures forall m :: m in r <==> m in s && Matches(pos, q, m)
    ensures forall m :: multiset(r)[m] == if Matches(pos, q, m) then multiset(s)[m] else 0
    ensures |r| <= |s|
  {
    if s == [] then []
    else
      assert s == [s[0]] + s[1..];
      (if Matches(pos, q, s[0]) then [s[0]] else []) + Filter(pos, q, s[1..])
  }

  /** The legal move the query admits, when it is the only one. */
  function Select(pos: Position, q: Query): (r: Result<Move, NotationError>)
    ensures r.Success? ==> r.value in pos.legal && Matches(pos, q, r.value)
    ensures r.Success? ==> forall m :: m in pos.legal && Matches(pos, q, m) ==> m == r.value
    ensures r == Failure(NoLegalMove) <==> forall m :: m in pos.legal ==> !Matches(pos, q, m)
    ensures r.Failure? ==> r.error == NoLegalMove || r.error == AmbiguousMove
  {
    var c := Filter(pos, q, pos.legal);
    if |c| == 0 then
      Failure(NoLegalMove)
    else if |c| == 1 then
      assert c[0] in c;
      assert forall m :: m in c ==> m == c[0];
      Success(c[0])
    else
      assert c[0] in c;
      Failure(AmbiguousMove)
  }

  lemma FilterNone(pos: Position, q: Query, s: seq<Move>)
    requires forall j :: 0 <= j < |s| ==> !Matches(pos, q, s[j])
    ensures Filter(pos, q, s) == []
  {
  }

  lemma {:induction false} FilterSingleton(pos: Position, q: Query, s: seq<Move>, i: nat)
    requires i < |s| && Matches(pos, q, s[i])
    requires forall j :: 0 <= j < |s| && j != i ==> !Matches(pos, q, s[j])
    ensures Filter(pos, q, s) == [s[i]]
  {
    if i == 0 {
      FilterNone(pos, q, s[1..]);
    } else {
      FilterSingleton(pos, q, s[1..], i - 1);
    }
  }

  /** A query that admits exactly one entry of the legal-move list selects it. */
  lemma SelectUnique(pos: Position, q: Query, i: nat)
    requires i < |pos.legal| && Matches(pos, q, pos.legal[i])
    requires forall j :: 0 <= j < |pos.legal| && j != i ==> !Matches(pos, q, pos.legal[j])
    ensures Select(pos, q) == Success(pos.legal[i])
  {
    FilterSingleton(pos, q, pos.legal, i);
  }

  /** A query that admits no entry of the legal-move list finds no legal move. */
  lemma SelectNone(pos: Position, q: Query)
    requires forall j :: 0 <= j < |pos.legal| ==> !Matches(pos, q, pos.legal[j])
    ensures Select(pos, q) == Failure(NoLegalMove)
  {
    forall mv | mv in pos.legal
      ensures !Matches(pos, q, mv)
    {
      var j :| 0 <= j < |pos.legal| && pos.legal[j] == mv;
    }
  }

  /** A query that admits one legal move, listed once, selects it. */
  lemma SelectOnly(pos: Position, q: Query, m: Move, k: nat)
    requires k < |pos.legal| && pos.legal[k] == m && Matches(pos, q, m)
    requires m !in pos.legal[..k] && m !in pos.legal[k + 1..]
    requires forall mv :: mv in pos.legal && Matches(pos, q, mv) ==> mv == m
    ensures Select(pos, q) == Success(m)
  {
    forall j | 0 <= j < |pos.legal| && j != k
      ensures !Matches(pos, q, pos.legal[j])
    {
      if j < k {
        assert pos.legal[j] in pos.legal[..k];
      } else {
        assert pos.legal[j] == pos.legal[k + 1..][j - k - 1];
      }
    }
    SelectUnique(pos, q, k);
  }

  /** A query that admits two different legal moves is ambiguous. */
  lemma SelectAmbiguous(pos: Position, q: Query, a: Move, b: Move)
    requires a in pos.legal && b in pos.legal && a != b
    requires Matches(pos, q, a) && Matches(pos, q, b)
    ensures Select(pos, q) == Failure(AmbiguousMove)
  {
    var c := Filter(pos, q, pos.legal);
    assert a in c && b in c;
  }
}

=== FILE: notations.dfy ===
/**
  The three notations as one closed family: each encodes a move against a
  position and decodes text against an optional position.
*/
module Notations {
  import opened Wrappers
  import opened Chess
  import Uci
  import San
  import Lan

  datatype Notation = UCINotation | AlgebraicNotation | LongAlgebraicNotation

  /** Encoding; the coordinate notation ignores the position and never fails. */
  function Encode(n: Notation, pos: Position, m: Move): (r: Result<string, NotationError>)
    ensures n == UCINotation ==> r.Success?
  {
    match n
    case UCINotation => Success(Uci.Encode(m))
    case AlgebraicNotation => San.Encode(pos, m)
    case LongAlgebraicNotation => Lan.Encode(pos, m)
  }

  /** Decoding; a decoded move is always one of the position's legal moves. */
  function Decode(n: Notation, pos: Option<Position>, s: string): (r: Result<Move, NotationError>)
    ensures r.Success? ==> pos.Some? && r.value in pos.value.legal
  {
    match n
    case UCINotation => Uci.Decode(pos, s)
    case AlgebraicNotation => San.Decode(pos, s)
    case LongAlgebraicNotation => Lan.Decode(pos, s)
  }

  /** Without a position no text decodes: at best its syntax is checked. */
  lemma DecodeNeedsPosition(n: Notation, s: string)
    ensures Decode(n, None, s).Failure?
  {
  }

  /**
    Every notation decodes the text of a legal move back to that move, with the
    generator's tags.
  */
  lemma RoundTrip(n: Notation, pos: Position, m: Move)
    requires WellFormed(pos) && m in pos.legal
    ensures Encode(n, pos, m).Success?
    ensures Decode(n, Some(pos), Encode(n, pos, m).value) == Success(m)
  {
    match n
    case UCINotation => Uci.RoundTrip(pos, m);
    case AlgebraicNotation => San.RoundTrip(pos, m);
    case LongAlgebraicNotation => Lan.RoundTrip(pos, m);
  }

  /**
    Encoding never fails for a legal move whose source square holds a piece and
    which promotes only a pawn.
  */
  lemma EncodeNeverFails(n: Notation, pos: Position, m: Move)
    requires SourcesOccupied(pos) && OnlyPawnsPromote(pos) && m in pos.legal
    ensures Encode(n, pos, m).Success?
  {
  }
}

=== FILE: san.dfy ===
/**
  Standard algebraic notation (SAN): a piece letter, the least source information
  that tells the move apart from other moves of the same kind to the same square,
  a capture marker, the destination, the promotion and the check mark
  ("Nf3", "Rae1", "exd5", "b8=Q+", "O-O").
*/
module San {
  import opened Wrappers
  import opened Chess
  import opened Matching
  import opened Algebraic

  /** Another legal move of a piece of the same kind to the same square. */
  predicate IsRival(pos: Position, m: Move, kind: PieceKind, mv: Move)
  {
    && mv.source != m.source
    && mv.dest == m.dest
    && mv.source in pos.board
    && pos.board[mv.source] == kind
  }

  predicate HasRival(pos: Position, m: Move, kind: PieceKind)
  {
    exists mv | mv in pos.legal :: IsRival(pos, m, kind, mv)
  }

  predicate RivalSharesFile(pos: Position, m: Move, kind: PieceKind)
  {
    exists mv | mv in pos.legal :: IsRival(pos, m, kind, mv) && mv.source.file == m.source.file
  }

  predicate RivalSharesRank(pos: Position, m: Move, kind: PieceKind)
  {
    exists mv | mv in pos.legal :: IsRival(pos, m, kind, mv) && mv.source.rank == m.source.rank
  }

  /**
    The source hints of a piece move: nothing when no rival exists; the file when
    it tells every rival apart; the rank when a rival stands on the same file; both
    when rivals share the file and the rank.
  */
  function Disambiguation(pos: Position, m: Move, kind: PieceKind): (r: (Option<Coord>, Option<Coord>))
    ensures r.0.Some? ==> r.0.value == m.source.file
    ensures r.1.Some? ==> r.1.value == m.source.rank
    ensures forall mv | mv in pos.legal && IsRival(pos, m, kind, mv) ::
      (r.0.Some? && mv.source.file != m.source.file) || (r.1.Some? && mv.source.rank != m.source.rank)
    ensures r == (None, None) <==> !HasRival(pos, m, kind)
    ensures r.1.Some? <==> RivalSharesFile(pos, m, kind)
    ensures r.0.Some? && r.1.Some? <==> RivalSharesFile(pos, m, kind) && RivalSharesRank(pos, m, kind)
  {
    var sharesFile := RivalSharesFile(pos, m, kind);
    var sharesRank := RivalSharesRank(pos, m, kind);
    var fileHint := if sharesRank || (HasRival(pos, m, kind) && !sharesFile) then Some(m.source.file) else None;
    var rankHint := if sharesFile then Some(m.source.rank) else None;
    (fileHint, rankHint)
  }

  /** SAN writes source hints on a pawn move only when it captures. */
  predicate PawnHintsOnCaptures(t: Token)
  {
    t.MoveToken? && t.kind == Pawn && (t.fileHint.Some? || t.rankHint.Some?) ==> t.capture
  }

  /**
    The SAN token of a move. Castling is written from the move's tags; otherwise
    the source square must hold a piece, and only a pawn may promote. A pawn
    capture names the pawn's file, a pawn push names nothing; a piece move names
    its kind and its disambiguation. The capture marker and the mark follow the
    move's tags.
  */
  function TokenFor(pos: Position, m: Move): (r: Result<Token, NotationError>)
    ensures r.Failure? <==> !IsCastle(m) && (m.source !in pos.board || (m.promo.Some? && pos.board[m.source] != Pawn))
    ensures r.Failure? ==> r.error == InconsistentMove
    ensures r.Success? ==> PawnHintsOnCaptures(r.value) && r.value.suffix == MarkOf(m)
    ensures r.Success? ==> (r.value.CastleToken? <==> IsCastle(m))
    ensures r.Success? && r.value.CastleToken? && r.value.side == KingSide ==> KingSideCastle in m.tags
    ensures r.Success? && r.value.CastleToken? && r.value.side == QueenSide ==> QueenSideCastle in m.tags && KingSideCastle !in m.tags
    ensures r.Success? && r.value.MoveToken? ==>
      && Matches(pos, QueryOf(r.value), m)
      && r.value.kind == pos.board[m.source]
      && r.value.capture == IsCapture(m)
    ensures r.Success? && r.value.MoveToken? && r.value.kind == Pawn ==>
      r.value.rankHint.None? && (r.value.fileHint.Some? <==> IsCapture(m))
    ensures r.Success? && r.value.MoveToken? && r.value.kind != Pawn ==>
      (r.value.fileHint, r.value.rankHint) == Disambiguation(pos, m, r.value.kind)
  {
    if IsCastle(m) then Success(CastleTokenFor(m).value)
    else if m.source !in pos.board then Failure(InconsistentMove)
    else
      var k := pos.board[m.source];
      if m.promo.Some? && k != Pawn then Failure(InconsistentMove)
      else if k == Pawn then
        var f := if IsCapture(m) then Some(m.source.file) else None;
        Success(MoveToken(Pawn, f, None, IsCapture(m), m.dest, m.promo, MarkOf(m)))
      else
        var (f, r) := Disambiguation(pos, m, k);
        Success(MoveToken(k, f, r, IsCapture(m), m.dest, m.promo, MarkOf(m)))
  }

  /** The SAN text of a move: the text of its token, which SAN's own syntax check reads back. */
  function Encode(pos: Position, m: Move): (r: Result<string, NotationError>)
    ensures r.Success? <==> TokenFor(pos, m).Success?
    ensures r.Failure? ==> r.error == InconsistentMove
    ensures r.Success? ==> Parse(r.value) == TokenFor(pos, m) && Syntax(r.value) == TokenFor(pos, m)
  {
    Write(TokenFor(pos, m))
  }

  /** The syntax check, which needs no position. */
  function Syntax(s: string): (r: Result<Token, NotationError>)
    ensures r.Success? ==> Format(r.value) == s && PawnHintsOnCaptures(r.value)
    ensures r.Success? <==> Parse(s).Success? && PawnHintsOnCaptures(Parse(s).value)
    ensures r.Failure? ==> r.error == InvalidSyntax || r.error == InvalidPromotionPiece
  {
    match Parse(s)
    case Failure(e) => Failure(e)
    case Success(t) => if PawnHintsOnCaptures(t) then Success(t) else Failure(InvalidSyntax)
  }

  /**
    Decodes SAN text against a position. Syntax is checked before the position is
    consulted; the move returned is the only legal move the text admits, as the
    generator lists it. A well-formed text that admits no legal move is
    NoLegalMove, one that admits several is AmbiguousMove.
  */
  function Decode(pos: Option<Position>, s: string): (r: Result<Move, NotationError>)
    ensures Syntax(s).Failure? ==> r == Failure(Syntax(s).error)
    ensures Syntax(s).Success? && pos.None? ==> r == Failure(PositionRequired)
    ensures r.Success? ==> pos.Some? && Syntax(s).Success? && r.value in pos.value.legal
    ensures r.Success? ==> Matches(pos.value, QueryOf(Syntax(s).value), r.value)
    ensures r.Success? ==> forall mv :: mv in pos.value.legal && Matches(pos.value, QueryOf(Syntax(s).value), mv) ==> mv == r.value
    ensures pos.Some? && Syntax(s).Success? ==>
      (r == Failure(NoLegalMove) <==> forall mv :: mv in pos.value.legal ==> !Matches(pos.value, QueryOf(Syntax(s).value), mv))
    ensures pos.Some? && Syntax(s).Success? && r.Failure? ==> r.error == NoLegalMove || r.error == AmbiguousMove
  {
    DecodeToken(pos, Syntax(s))
  }

  /**
    A well-formed text that admits exactly one entry of the legal-move list decodes
    to that entry, whatever its capture marker and check mark say.
  */
  lemma DecodeUnique(pos: Position, s: string, i: nat)
    requires Syntax(s).Success?
    requires i < |pos.legal| && Matches(pos, QueryOf(Syntax(s).value), pos.legal[i])
    requires forall j :: 0 <= j < |pos.legal| && j != i ==> !Matches(pos, QueryOf(Syntax(s).value), pos.legal[j])
    ensures Decode(Some(pos), s) == Success(pos.legal[i])
  {
    DecodeTokenUnique(pos, Syntax(s).value, i);
  }

  /**
    The capture marker and the check mark are advisory: the text of any token that
    passes the syntax check and puts the same query as s decodes as s does.
  */
  lemma DecodeIgnoresMarks(pos: Option<Position>, s: string, t: Token)
    requires Syntax(s).Success? && PawnHintsOnCaptures(t)
    requires QueryOf(t) == QueryOf(Syntax(s).value)
    ensures Syntax(Format(t)) == Success(t)
    ensures Decode(pos, Format(t)) == Decode(pos, s)
  {
    ParseFormat(t);
  }

  /** Two pawn moves the generator lists to one square with one promotion are captures from different files. */
  lemma PawnMovesApart(pos: Position, m: Move, mv: Move)
    requires PawnMovesDistinct(pos) && m in pos.legal && mv in pos.legal
    ensures IsPawnMove(pos, m) && IsPawnMove(pos, mv) && m.dest == mv.dest && m.promo == mv.promo && m.source != mv.source
      ==> IsCapture(m) && m.source.file != mv.source.file
  {
  }

  /** The SAN text of a legal move decodes to that very move, tags included. */
  lemma RoundTrip(pos: Position, m: Move)
    requires WellFormed(pos) && m in pos.legal
    ensures Encode(pos, m).Success?
    ensures Decode(Some(pos), Encode(pos, m).value) == Success(m)
  {
    var i :| 0 <= i < |pos.legal| && pos.legal[i] == m;
    var t := TokenFor(pos, m).value;
    var q := QueryOf(t);
    assert Matches(pos, q, m);
    forall j | 0 <= j < |pos.legal| && j != i
      ensures !Matches(pos, q, pos.legal[j])
    {
      var mv := pos.legal[j];
      assert !SameSquares(m, mv);
      if t.MoveToken? && t.kind == Pawn {
        PawnMovesApart(pos, m, mv);
      } else if t.MoveToken? {
        assert mv.source != m.source && mv.dest == m.dest && mv.source in pos.board && pos.board[mv.source] == t.kind
          ==> IsRival(pos, m, t.kind, mv);
      }
    }
    SelectUnique(pos, q, i);
  }
}

=== FILE: scenarios.dfy ===
/**
  The scenarios of the notation tests, stated over the model. Positions are given
  by their boards and their legal-move lists; where a test's position is too large
  to list, the scenario holds for every position whose generator lists the move
  in question.
*/
module Scenarios {
  import opened Wrappers
  import opened Chess
  import opened Notations
  import opened Matching
  import opened Algebraic
  import Uci
  import San
  import Lan

  const A1 := Square(0, 0)
  const A7 := Square(0, 6)
  const A8 := Square(0, 7)
  const B5 := Square(1, 4)
  const B7 := Square(1, 6)
  const B8 := Square(1, 7)
  const D1 := Square(3, 0)
  const D4 := Square(3, 3)
  const D6 := Square(3, 5)
  const D7 := Square(3, 6)
  const D8 := Square(3, 7)
  const E1 := Square(4, 0)
  const E2 := Square(4, 1)
  const E4 := Square(4, 3)
  const E5 := Square(4, 4)
  const E7 := Square(4, 6)
  const F1 := Square(5, 0)
  const F3 := Square(5, 2)
  const F4 := Square(5, 3)
  const F5 := Square(5, 4)
  const F6 := Square(5, 5)
  const G1 := Square(6, 0)
  const H4 := Square(7, 3)

  /** The initial position, white to move: sixteen pawn moves and four knight moves. */
  const StartPosition := Position(StartBoard, StartMoves)

  const StartBoard: map<Square, PieceKind> :=
    map[
      Square(0, 0) := Rook, Square(1, 0) := Knight, Square(2, 0) := Bishop, Square(3, 0) := Queen,
      Square(4, 0) := King, Square(5, 0) := Bishop, Square(6, 0) := Knight, Square(7, 0) := Rook,
      Square(0, 7) := Rook, Square(1, 7) := Knight, Square(2, 7) := Bishop, Square(3, 7) := Queen,
      Square(4, 7) := King, Square(5, 7) := Bishop, Square(6, 7) := Knight, Square(7, 7) := Rook,
      Square(0, 1) := Pawn, Square(1, 1) := Pawn, Square(2, 1) := Pawn, Square(3, 1) := Pawn,
      Square(4, 1) := Pawn, Square(5, 1) := Pawn, Square(6, 1) := Pawn, Square(7, 1) := Pawn,
      Square(0, 6) := Pawn, Square(1, 6) := Pawn, Square(2, 6) := Pawn, Square(3, 6) := Pawn,
      Square(4, 6) := Pawn, Square(5, 6) := Pawn, Square(6, 6) := Pawn, Square(7, 6) := Pawn]

  const StartMoves: seq<Move> := [
      Move(Square(0, 1), Square(0, 2), None, {}), Move(Square(0, 1), Square(0, 3), None, {}),
      Move(Square(1, 1), Square(1, 2), None, {}), Move(Square(1, 1), Square(1, 3), None, {}),
      Move(Square(2, 1), Square(2, 2), None, {}), Move(Square(2, 1), Square(2, 3), None, {}),
      Move(Square(3, 1), Square(3, 2), None, {}), Move(Square(3, 1), Square(3, 3), None, {}),
      Move(Square(4, 1), Square(4, 2), None, {}), Move(Square(4, 1), Square(4, 3), None, {}),
      Move(Square(5, 1), Square(5, 2), None, {}), Move(Square(5, 1), Square(5, 3), None, {}),
      Move(Square(6, 1), Square(6, 2), None, {}), Move(Square(6, 1), Square(6, 3), None, {}),
      Move(Square(7, 1), Square(7, 2), None, {}), Move(Square(7, 1), Square(7, 3), None, {}),
      Move(Square(1, 0), Square(0, 2), None, {}), Move(Square(1, 0), Square(2, 2), None, {}),
      Move(Square(6, 0), Square(5, 2), None, {}), Move(Square(6, 0), Square(7, 2), None, {})]

  /** A lone white pawn on a7 (FEN "8/P7/8/8/8/8/8/8 w - - 0 1"). */
  const LonePawnPosition := Position(
    map[A7 := Pawn],
    [Move(A7, A8, Some(Queen), {}), Move(A7, A8, Some(Rook), {}),
     Move(A7, A8, Some(Bishop), {}), Move(A7, A8, Some(Knight), {})])

  /** A white pawn on b7 and the black king on e7 (FEN "8/1P2k3/8/8/8/8/8/8 w - - 0 1"). */
  const PromotionPosition := Position(
    map[B7 := Pawn, E7 := King],
    [Move(B7, B8, Some(Queen), {}), Move(B7, B8, Some(Rook), {}),
     Move(B7, B8, Some(Bishop), {}), Move(B7, B8, Some(Knight), {})])

  /** Coordinate encoding writes the two labels, and the promotion letter when there is one. */
  lemma UciEncodeExamples()
    ensures Encode(UCINotation, StartPosition, Move(E2, E4, None, {})) == Success("e2e4")
    ensures Encode(UCINotation, LonePawnPosition, Move(A7, A8, Some(Queen), {})) == Success("a7a8q")
  {
    assert Uci.Encode(Move(E2, E4, None, {})) == "e2e4" by {
      assert Label(E2) == "e2" && Label(E4) == "e4";
    }
    assert Uci.Encode(Move(A7, A8, Some(Queen), {})) == "a7a8q" by {
      assert Label(A7) == "a7" && Label(A8) == "a8";
    }
  }

  /** Coordinate encoding does not check legality: e2e5 is no legal move, and still has a text. */
  lemma UciEncodeIgnoresLegality()
    ensures Move(E2, E5, None, {}) !in StartPosition.legal
    ensures Encode(UCINotation, StartPosition, Move(E2, E5, None, {})) == Success("e2e5")
  {
    assert Uci.Encode(Move(E2, E5, None, {})) == "e2e5" by {
      assert Label(E2) == "e2" && Label(E5) == "e5";
    }
  }

  /** Whatever the position, "e2e4" asks for the move from e2 to e4 without promotion. */
  lemma UciTextE2E4(pos: Position)
    ensures Uci.Decode(Some(pos), "e2e4") == Select(pos, Uci.QueryOf((E2, E4, None)))
  {
    assert Uci.Encode(Move(E2, E4, None, {})) == "e2e4" by {
      assert Label(E2) == "e2" && Label(E4) == "e4";
    }
    Uci.ParseEncode(Move(E2, E4, None, {}));
  }

  /** Whatever the position, "a7a8q" asks for the move from a7 to a8 promoting to a queen. */
  lemma UciTextA7A8Q(pos: Position)
    ensures Uci.Decode(Some(pos), "a7a8q") == Select(pos, Uci.QueryOf((A7, A8, Some(Queen))))
  {
    assert Uci.Encode(Move(A7, A8, Some(Queen), {})) == "a7a8q" by {
      assert Label(A7) == "a7" && Label(A8) == "a8";
    }
    Uci.ParseEncode(Move(A7, A8, Some(Queen), {}));
  }

  /** The initial position lists the double push e2-e4 once, as its tenth move. */
  lemma StartSelectsE2E4(pos: Position)
    requires pos.legal == StartMoves
    ensures Select(pos, Uci.QueryOf((E2, E4, None))) == Success(Move(E2, E4, None, {}))
  {
    SelectUnique(pos, Uci.QueryOf((E2, E4, None)), 9);
  }

  /** Of the four promotions on a8, the query with a queen selects the first. */
  lemma LonePawnSelectsQueen()
    ensures Select(LonePawnPosition, Uci.QueryOf((A7, A8, Some(Queen)))) == Success(Move(A7, A8, Some(Queen), {}))
  {
    SelectOnly(LonePawnPosition, Uci.QueryOf((A7, A8, Some(Queen))), Move(A7, A8, Some(Queen), {}), 0);
  }

  /** "e2e4" in the initial position is the double pawn push. */
  lemma UciDecodeDoublePush()
    ensures Uci.Decode(Some(StartPosition), "e2e4") == Success(Move(E2, E4, None, {}))
  {
    UciTextE2E4(StartPosition);
    StartSelectsE2E4(StartPosition);
  }

  /** "a7a8q" is the queen promotion, not one of the three under-promotions. */
  lemma UciDecodePromotion()
    ensures Uci.Decode(Some(LonePawnPosition), "a7a8q") == Success(Move(A7, A8, Some(Queen), {}))
  {
    UciTextA7A8Q(LonePawnPosition);
    LonePawnSelectsQueen();
  }

  /** The coordinate text of a listed move decodes to the generator's entry. */
  lemma UciDecodeTagged(pos: Position, m: Move, s: string)
    requires DistinctMoves(pos) && Uci.Encode(m) == s
    ensures m in pos.legal ==> Uci.Decode(Some(pos), s) == Success(m)
  {
    if m in pos.legal {
      Uci.RoundTrip(pos, m);
    }
  }

  /**
    Coordinate decoding returns the generator's move, whose tags the text does not
    show: a capture with check, a capture, a check, a castle with check, en-passant
    captures with and without check.
  */
  lemma UciDecodeKeepsGeneratorTags(pos: Position)
    requires DistinctMoves(pos)
    ensures Move(D1, D8, None, {Check, Capture}) in pos.legal ==>
      Uci.Decode(Some(pos), "d1d8") == Success(Move(D1, D8, None, {Check, Capture}))
    ensures Move(D6, E5, None, {Capture}) in pos.legal ==>
      Uci.Decode(Some(pos), "d6e5") == Success(Move(D6, E5, None, {Capture}))
    ensures Move(F1, B5, None, {Check}) in pos.legal ==>
      Uci.Decode(Some(pos), "f1b5") == Success(Move(F1, B5, None, {Check}))
    ensures Move(E1, G1, None, {Check, KingSideCastle}) in pos.legal ==>
      Uci.Decode(Some(pos), "e1g1") == Success(Move(E1, G1, None, {Check, KingSideCastle}))
    ensures Move(E4, F3, None, {Check, EnPassant}) in pos.legal ==>
      Uci.Decode(Some(pos), "e4f3") == Success(Move(E4, F3, None, {Check, EnPassant}))
    ensures Move(E5, D6, None, {EnPassant}) in pos.legal ==>
      Uci.Decode(Some(pos), "e5d6") == Success(Move(E5, D6, None, {EnPassant}))
  {
    assert Label(D1) == "d1" && Label(D8) == "d8" && Label(D6) == "d6" && Label(E5) == "e5";
    assert Label(F1) == "f1" && Label(B5) == "b5" && Label(E1) == "e1" && Label(G1) == "g1";
    assert Label(E4) == "e4" && Label(F3) == "f3";
    UciDecodeTagged(pos, Move(D1, D8, None, {Check, Capture}), "d1d8");
    UciDecodeTagged(pos, Move(D6, E5, None, {Capture}), "d6e5");
    UciDecodeTagged(pos, Move(F1, B5, None, {Check}), "f1b5");
    UciDecodeTagged(pos, Move(E1, G1, None, {Check, KingSideCastle}), "e1g1");
    UciDecodeTagged(pos, Move(E4, F3, None, {Check, EnPassant}), "e4f3");
    UciDecodeTagged(pos, Move(E5, D6, None, {EnPassant}), "e5d6");
  }

  /** Malformed coordinate text is rejected before any position is consulted. */
  lemma UciDecodeRejectsSyntax(pos: Option<Position>)
    ensures Uci.Decode(pos, "e2e") == Failure(InvalidSyntax)
    ensures Uci.Decode(pos, "e9e4") == Failure(InvalidSyntax)
    ensures Uci.Decode(pos, "a7a8x") == Failure(InvalidPromotionPiece)
  {
    UciRejectsShortText();
    UciRejectsBadRank();
    UciRejectsBadPromotion();
  }

  lemma UciRejectsShortText()
    ensures Uci.Parse("e2e") == Failure(InvalidSyntax)
  {
  }

  lemma UciRejectsBadRank()
    ensures Uci.Parse("e9e4") == Failure(InvalidSyntax)
  {
    assert SquareOf("e9e4"[..2]).None?;
  }

  lemma UciRejectsBadPromotion()
    ensures Uci.Parse("a7a8x") == Failure(InvalidPromotionPiece)
  {
    assert "a7a8x"[..2] == Label(A7) && "a7a8x"[2..4] == Label(A8);
    LabelRoundTrip(A7);
    LabelRoundTrip(A8);
  }

  /** A four-fold castle is neither castle text nor ends in a square. */
  lemma ParseRejectsLongCastle()
    ensures Parse("O-O-O-O") == Failure(InvalidSyntax)
  {
    assert SplitSuffix("O-O-O-O") == ("O-O-O-O", NoMark);
    assert SplitPromotion("O-O-O-O") == Success(("O-O-O-O", None));
    assert SquareOf("O-O-O-O"[5..]).None?;
  }

  /** "dx4" ends in "x4", which is no square. */
  lemma ParseRejectsMissingFile()
    ensures Parse("dx4") == Failure(InvalidSyntax)
  {
    assert SplitSuffix("dx4") == ("dx4", NoMark);
    assert SplitPromotion("dx4") == Success(("dx4", None));
    assert SquareOf("dx4"[1..]).None?;
  }

  lemma SplitsOfLowerCasePiece()
    ensures SplitSuffix("nf3") == ("nf3", NoMark)
    ensures SplitPromotion("nf3") == Success(("nf3", None))
  {
  }

  lemma HeadRejectsLowerCase()
    ensures ParseHead("n", F3, None, NoMark) == Failure(InvalidSyntax)
  {
  }

  /** A text that is a head and a destination, with no promotion and no mark, is read by ParseHead. */
  lemma ParseOfStem(s: string, head: string, d: Square)
    requires s == head + Label(d)
    requires SplitSuffix(s) == (s, NoMark) && SplitPromotion(s) == Success((s, None))
    ensures Parse(s) == ParseHead(head, d, None, NoMark)
  {
    assert s[|s| - 2] == FileChar(d.file);
    ParseStemOf(head, d, None, NoMark);
  }

  /** In "nf3" the lower-case n is neither a piece letter nor a hint. */
  lemma ParseRejectsLowerCasePiece()
    ensures Parse("nf3") == Failure(InvalidSyntax)
  {
    assert "nf3" == "n" + Label(F3) by {
      assert Label(F3) == "f3";
    }
    SplitsOfLowerCasePiece();
    ParseOfStem("nf3", "n", F3);
    HeadRejectsLowerCase();
  }

  /** "bf4" reads as a pawn move from the b-file that captures nothing. */
  lemma ParseNamesPawnFile()
    ensures Parse("bf4") == Success(MoveToken(Pawn, Some(1), None, false, F4, None, NoMark))
  {
    var t := MoveToken(Pawn, Some(1), None, false, F4, None, NoMark);
    assert Format(t) == "bf4" by {
      assert Label(F4) == "f4";
    }
    ParseFormat(t);
  }

  /**
    Malformed SAN is rejected whatever the position: a four-fold castle, a
    destination without a file, a lower-case piece letter, and a pawn file prefix
    without a capture marker.
  */
  lemma SanDecodeRejectsSyntax(pos: Option<Position>)
    ensures San.Decode(pos, "O-O-O-O") == Failure(InvalidSyntax)
    ensures San.Decode(pos, "dx4") == Failure(InvalidSyntax)
    ensures San.Decode(pos, "nf3") == Failure(InvalidSyntax)
    ensures San.Decode(pos, "bf4") == Failure(InvalidSyntax)
  {
    ParseRejectsLongCastle();
    ParseRejectsMissingFile();
    ParseRejectsLowerCasePiece();
    ParseNamesPawnFile();
  }

  /** SAN text that passes the syntax check is resolved by the query of its token. */
  lemma SanDecodeToken(pos: Position, t: Token, s: string)
    requires Format(t) == s && San.PawnHintsOnCaptures(t)
    ensures San.Decode(Some(pos), s) == Select(pos, QueryOf(t))
  {
    ParseFormat(t);
  }

  /** Whatever the position, "e5" asks for a pawn move to e5. */
  lemma SanTextE5(pos: Position)
    ensures San.Decode(Some(pos), "e5") == Select(pos, QueryOf(MoveToken(Pawn, None, None, false, E5, None, NoMark)))
  {
    var t := MoveToken(Pawn, None, None, false, E5, None, NoMark);
    assert Format(t) == "e5" by {
      assert Label(E5) == "e5";
    }
    SanDecodeToken(pos, t, "e5");
  }

  /** No move of the initial position reaches e5. */
  lemma StartNeverReachesE5(pos: Position)
    requires pos.legal == StartMoves
    ensures Select(pos, QueryOf(MoveToken(Pawn, None, None, false, E5, None, NoMark))) == Failure(NoLegalMove)
  {
    SelectNone(pos, QueryOf(MoveToken(Pawn, None, None, false, E5, None, NoMark)));
  }

  /** "e5" names no legal move of the initial position. */
  lemma SanDecodeRejectsUnreachable()
    ensures San.Decode(Some(StartPosition), "e5") == Failure(NoLegalMove)
  {
    SanTextE5(StartPosition);
    StartNeverReachesE5(StartPosition);
  }

  /** "Nd7" does not say which of two knights that both reach d7 moves. */
  lemma SanDecodeRejectsAmbiguous(pos: Position)
    requires B8 in pos.board && pos.board[B8] == Knight && F6 in pos.board && pos.board[F6] == Knight
    requires Move(B8, D7, None, {}) in pos.legal && Move(F6, D7, None, {}) in pos.legal
    ensures San.Decode(Some(pos), "Nd7") == Failure(AmbiguousMove)
  {
    var t := MoveToken(Knight, None, None, false, D7, None, NoMark);
    assert Format(t) == "Nd7" by {
      assert Label(D7) == "d7";
    }
    SanDecodeToken(pos, t, "Nd7");
    SelectAmbiguous(pos, QueryOf(t), Move(B8, D7, None, {}), Move(F6, D7, None, {}));
  }

  /** The pawn on b7 promotes to a queen on b8 and gives check. */
  const PromotionCheck := Move(B7, B8, Some(Queen), {Check})

  lemma SanPromotionToken()
    ensures San.TokenFor(PromotionPosition, PromotionCheck)
         == Success(MoveToken(Pawn, None, None, false, B8, Some(Queen), CheckMark))
  {
  }

  lemma LanPromotionToken()
    ensures Lan.TokenFor(PromotionPosition, PromotionCheck)
         == Success(MoveToken(Pawn, Some(1), Some(6), false, B8, Some(Queen), CheckMark))
  {
  }

  /** A promotion with check in SAN: destination, then "=Q", then "+". */
  lemma SanPromotionWithCheck()
    ensures San.Encode(PromotionPosition, PromotionCheck) == Success("b8=Q+")
  {
    SanPromotionToken();
    assert Format(MoveToken(Pawn, None, None, false, B8, Some(Queen), CheckMark)) == "b8=Q+" by {
      assert Label(B8) == "b8";
      assert PromoText(Some(Queen)) == "=Q" && SuffixText(CheckMark) == "+";
    }
  }

  /** The same promotion in LAN writes the source square first. */
  lemma LanPromotionWithCheck()
    ensures Lan.Encode(PromotionPosition, PromotionCheck) == Success("b7b8=Q+")
  {
    LanPromotionToken();
    assert Format(MoveToken(Pawn, Some(1), Some(6), false, B8, Some(Queen), CheckMark)) == "b7b8=Q+" by {
      assert Label(B8) == "b8";
      assert HintText(Some(1), Some(6)) == "b7";
      assert PromoText(Some(Queen)) == "=Q" && SuffixText(CheckMark) == "+";
    }
  }

  /** The texts of three moves of the game in issue 84. */
  lemma Issue84Texts()
    ensures Format(MoveToken(Rook, Some(0), None, false, E1, None, NoMark)) == "Rae1"
    ensures Format(MoveToken(Rook, Some(5), None, false, D1, None, NoMark)) == "Rfd1"
    ensures Format(MoveToken(Knight, Some(7), None, false, F5, None, CheckMark)) == "Nhf5+"
  {
    assert Label(E1) == "e1" && Label(D1) == "d1" && Label(F5) == "f5";
  }

  /**
    Two rooks on the first rank reach e1: the rook from a1 is told apart by its
    file ("17. Rae1" of the game in issue 84).
  */
  lemma SanRookSharingRank(pos: Position)
    requires A1 in pos.board && pos.board[A1] == Rook && F1 in pos.board && pos.board[F1] == Rook
    requires Move(A1, E1, None, {}) in pos.legal && Move(F1, E1, None, {}) in pos.legal
    requires forall mv :: mv in pos.legal && mv.dest == E1 && mv.source in pos.board && pos.board[mv.source] == Rook ==>
      mv.source == A1 || mv.source == F1
    ensures San.Encode(pos, Move(A1, E1, None, {})) == Success("Rae1")
  {
    var m := Move(A1, E1, None, {});
    assert San.IsRival(pos, m, Rook, Move(F1, E1, None, {}));
    assert San.Disambiguation(pos, m, Rook) == (Some(0), None);
    Issue84Texts();
  }

  /**
    Rooks on f1 and d6 both reach d1 and share neither file nor rank: the file
    tells them apart ("25. Rfd1").
  */
  lemma SanRooksApart(pos: Position)
    requires F1 in pos.board && pos.board[F1] == Rook && D6 in pos.board && pos.board[D6] == Rook
    requires Move(F1, D1, None, {}) in pos.legal && Move(D6, D1, None, {}) in pos.legal
    requires forall mv :: mv in pos.legal && mv.dest == D1 && mv.source in pos.board && pos.board[mv.source] == Rook ==>
      mv.source == F1 || mv.source == D6
    ensures San.Encode(pos, Move(F1, D1, None, {})) == Success("Rfd1")
  {
    var m := Move(F1, D1, None, {});
    assert San.IsRival(pos, m, Rook, Move(D6, D1, None, {}));
    assert San.Disambiguation(pos, m, Rook) == (Some(5), None);
    Issue84Texts();
  }

  /**
    Knights on h4 and d4 both reach f5 with check: the file of the moving knight
    and the check mark are written ("30. Nhf5+").
  */
  lemma SanKnightWithCheck(pos: Position)
    requires H4 in pos.board && pos.board[H4] == Knight && D4 in pos.board && pos.board[D4] == Knight
    requires Move(H4, F5, None, {Check}) in pos.legal
    requires exists mv :: mv in pos.legal && mv.source == D4 && mv.dest == F5
    requires forall mv :: mv in pos.legal && mv.dest == F5 && mv.source in pos.board && pos.board[mv.source] == Knight ==>
      mv.source == H4 || mv.source == D4
    ensures San.Encode(pos, Move(H4, F5, None, {Check})) == Success("Nhf5+")
  {
    var m := Move(H4, F5, None, {Check});
    var rival :| rival in pos.legal && rival.source == D4 && rival.dest == F5;
    assert San.IsRival(pos, m, Knight, rival);
    assert San.Disambiguation(pos, m, Knight) == (Some(7), None);
    Issue84Texts();
  }
}

=== FILE: uci.dfy ===
/**
  Coordinate notation of the Universal Chess Interface (UCI): the source label,
  the destination label and, for a promotion, the lower-case letter of the new
  piece ("e2e4", "a7a8q").
*/
module Uci {
  import opened Wrappers
  import opened Chess
  import opened Matching

  function PromoLetter(k: PromoKind): char
  {
    match k
    case Queen => 'q'
    case Rook => 'r'
    case Bishop => 'b'
    case Knight => 'n'
  }

  /** The promotion a lower-case letter names; only q, r, b and n name one. */
  function PromoOfLetter(c: char): (r: Option<PromoKind>)
    ensures r.Some? <==> c in "qrbn"
    ensures r.Some? ==> PromoLetter(r.value) == c
  {
    match c
    case 'q' => Some(Queen)
    case 'r' => Some(Rook)
    case 'b' => Some(Bishop)
    case 'n' => Some(Knight)
    case _ => None
  }

  /**
    The text of a move. Neither the position nor the tags are consulted, so every
    move has a text, legal or not.
  */
  function Encode(m: Move): (s: string)
    ensures |s| == if m.promo.Some? then 5 else 4
  {
    Label(m.source) + Label(m.dest) + (if m.promo.Some? then [PromoLetter(m.promo.value)] else [])
  }

  /**
    The syntax check: 4 or 5 characters, two squares, and a fifth character that
    must be a promotion letter. A bad promotion letter is InvalidPromotionPiece,
    anything else InvalidSyntax.
  */
  function Parse(s: string): (r: Result<(Square, Square, Option<PromoKind>), NotationError>)
    ensures r.Success? ==> Encode(Move(r.value.0, r.value.1, r.value.2, {})) == s
    ensures r.Failure? && r.error == InvalidPromotionPiece <==>
      |s| == 5 && SquareOf(s[..2]).Some? && SquareOf(s[2..4]).Some? && s[4] !in "qrbn"
    ensures r.Failure? ==> r.error == InvalidSyntax || r.error == InvalidPromotionPiece
  {
    if |s| != 4 && |s| != 5 then Failure(InvalidSyntax)
    else
      var a, b := SquareOf(s[..2]), SquareOf(s[2..4]);
      if a.None? || b.None? then Failure(InvalidSyntax)
      else if |s| == 4 then
        assert s == s[..2] + s[2..4];
        Success((a.value, b.value, None))
      else if PromoOfLetter(s[4]).None? then Failure(InvalidPromotionPiece)
      else
        assert s == s[..2] + s[2..4] + [s[4]];
        Success((a.value, b.value, PromoOfLetter(s[4])))
  }

  /** Parse reads back the squares and promotion of every encoded move. */
  lemma ParseEncode(m: Move)
    ensures Parse(Encode(m)) == Success((m.source, m.dest, m.promo))
  {
    var s := Encode(m);
    assert s[..2] == Label(m.source);
    assert s[2..4] == Label(m.dest);
    LabelRoundTrip(m.source);
    LabelRoundTrip(m.dest);
  }

  /** Two moves have the same text exactly when they share squares and promotion. */
  lemma EncodeInjective(a: Move, b: Move)
    ensures Encode(a) == Encode(b) <==> SameSquares(a, b)
  {
    if Encode(a) == Encode(b) {
      ParseEncode(a);
      ParseEncode(b);
    }
  }

  function QueryOf(p: (Square, Square, Option<PromoKind>)): Query
  {
    BySquares(None, Some(p.0.file), Some(p.0.rank), p.1, p.2)
  }

  /**
    Decodes UCI text. Syntax is checked before the position is looked at; the move
    returned is the only legal move with this text, as the generator lists it, so
    its tags (capture, check, en passant, castling) are the generator's and not
    derived from the text.
  */
  function Decode(pos: Option<Position>, s: string): (r: Result<Move, NotationError>)
    ensures Parse(s).Failure? ==> r == Failure(Parse(s).error)
    ensures Parse(s).Success? && pos.None? ==> r == Failure(PositionRequired)
    ensures r.Success? ==> pos.Some? && r.value in pos.value.legal && Encode(r.value) == s
    ensures r.Success? ==> forall mv :: mv in pos.value.legal && Encode(mv) == s ==> mv == r.value
    ensures pos.Some? && Parse(s).Success? ==>
      (r == Failure(NoLegalMove) <==> forall mv :: mv in pos.value.legal ==> Encode(mv) != s)
    ensures pos.Some? && Parse(s).Success? && r.Failure? ==> r.error == NoLegalMove || r.error == AmbiguousMove
  {
    match Parse(s)
    case Failure(e) => Failure(e)
    case Success(p) =>
      if pos.None? then Failure(PositionRequired)
      else
        assert forall mv :: Matches(pos.value, QueryOf(p), mv) <==> Encode(mv) == s by {
          forall mv ensures Matches(pos.value, QueryOf(p), mv) <==> Encode(mv) == s {
            EncodeInjective(mv, Move(p.0, p.1, p.2, {}));
          }
        }
        Select(pos.value, QueryOf(p))
  }

  /** A text that exactly one entry of the legal-move list has decodes to that entry. */
  lemma DecodeUnique(pos: Position, s: string, i: nat)
    requires i < |pos.legal| && Encode(pos.legal[i]) == s
    requires forall j :: 0 <= j < |pos.legal| && j != i ==> Encode(pos.legal[j]) != s
    ensures Decode(Some(pos), s) == Success(pos.legal[i])
  {
    ParseEncode(pos.legal[i]);
    var p := Parse(s).value;
    forall mv ensures Matches(pos, QueryOf(p), mv) <==> Encode(mv) == s {
      EncodeInjective(mv, Move(p.0, p.1, p.2, {}));
    }
    SelectUnique(pos, QueryOf(p), i);
  }

  /** The UCI text of a legal move decodes to that very move, tags included. */
  lemma RoundTrip(pos: Position, m: Move)
    requires DistinctMoves(pos) && m in pos.legal
    ensures Decode(Some(pos), Encode(m)) == Success(m)
  {
    var i :| 0 <= i < |pos.legal| && pos.legal[i] == m;
    ParseEncode(m);
    var q := QueryOf((m.source, m.dest, m.promo));
    forall j | 0 <= j < |pos.legal| && j != i
      ensures !Matches(pos, q, pos.legal[j])
    {
      assert !SameSquares(pos.legal[i], pos.legal[j]);
    }
    SelectUnique(pos, q, i);
  }
}

=== FILE: wrappers.dfy ===
/** Option and Result values shared by the notation modules. */
module Wrappers {

  datatype Option<+T> = None | Some(value: T)

  datatype Result<+T, +E> = Success(value: T) | Failure(error: E)
}
